=== FILE: README.md ===
# FileStringEditor in Dafny

A model of `edit.js`, a command-line tool that walks a directory tree and, in every
regular file that contains a search string, replaces each occurrence with a
replacement string, logging one line per outcome to the console and to a dated log
file under `~/logs`.

The model covers the four deterministic parts of the script:

- **the argument gate**: three positional arguments, each present and non-empty, or the
  usage text and exit status 1 (`cli.dfy`, module `Cli`);
- **log formatting**: the `[timestamp] message` entry, its trimmed console copy and the
  `editor-<date>.log` file name (`logger.dfy`, module `Logger`);
- **the per-file decision and the traversal**: read, test, replace, write, and the
  recursive walk over directories, giving a new tree and a multiset of outcome messages
  (`editor.dfy`, module `Editor`, over the tree of `filetree.dfy`, module `FileTree`);
- **the driver**: the banner lines, then one walk of the tree named by the directory
  argument (`Editor.Run`).

`text.dfy` (module `Text`) holds the string operations the script relies on:
`includes`, literal replace-all, `split`/`join` and `trim`. `walkproofs.dfy`
(module `WalkProofs`) proves what the walk does to the whole tree. `scenarios.dfy`
(module `Scenarios`) works through concrete runs on a small tree. `wrappers.dfy` holds
`Option` and `Result`.

The file system is a finite tree. A file node carries flags that say whether
`readFile` and `writeFile` succeed on it, and a directory node one that says whether
`readdir` succeeds; when they fail, the flag holds the error text they report. The flag
for `stat` sits on each directory entry (`FileTree.Entry`), so the root of the walk has
none. Paths in messages are sequences of names relative to the directory argument. They
are rendered as the directory argument followed by the names, joined with `/`
(`Editor.PathText`). Callbacks in `edit.js` complete in no fixed order, so a walk's messages form a multiset, while the four banner
lines form a sequence in console order (`console.log` is synchronous; their appends to
the log file may land in any order).

The replacement at edit.js:77 builds a `RegExp` from the search string. The model
restricts itself to the literal case (`Editor.IsLiteralCase`): the search string has
no regular-expression metacharacter and the replacement has no `$`. In that case the
`includes` test at line 75 is `Text.Contains`, the regular-expression replace at line 77
is the literal, leftmost, non-overlapping replace-all `Text.ReplaceAll`, and the two agree
on whether the text has an occurrence (`Text.ContainsIffSplitMany`).

## Model

| member | source | states |
|---|---|---|
| Cli.ParseArgs | edit.js:8-14 | accepted exactly when at least three arguments are given and the first three are non-empty; then the invocation is those three; otherwise the error is the usage text; an accepted search string is never empty |
| Editor.Run | edit.js:8-103 | status 1 exactly when the arguments are rejected, and then the usage text, no banner, no walk and an unchanged tree; otherwise (given that the logs directory can be created) status 0, the banner is `Starting…`, the directory, the search string and the replacement, in that order, and the resulting tree and outcomes are those of exactly one walk of the tree from the directory argument, which keeps its layout |
| Scenarios.MissingArgumentRejected | edit.js:11-13 | with only two arguments the run stops with the usage text and status 1, and nothing is logged or changed |
| Scenarios.EmptyArgumentRejectedWhateverThePattern | edit.js:11-13 | an empty argument is rejected with the usage text and status 1 even when another argument holds a regular-expression metacharacter or `$`, and nothing is logged or changed |
| Logger.LogEntry | edit.js:31 | the entry is `[`, the timestamp, `] `, the message and a newline, each at its position, so its length is that of timestamp and message plus four |
| Logger.ConsoleLine | edit.js:34 | the console copy is no longer than the entry and neither starts nor ends with whitespace |
| Logger.LogEntryRoundTrip | edit.js:31 | a log-file line `[ts] msg` plus newline gives back its timestamp and message intact when the timestamp holds no `]` |
| Logger.ConsoleLineOfVisibleMessage | edit.js:31-34 | when the message has a visible character, the console copy is the log-file line without its newline and without the message's trailing whitespace |
| Logger.ConsoleLineOfBlankMessage | edit.js:31-34 | when the message is only whitespace, the console shows just `[ts]` |
| Text.Trim | edit.js:34 | the trimmed text is no longer than the input and neither starts nor ends with whitespace |
| Text.TrimStart | edit.js:34 | the result is a suffix of the input, everything dropped is whitespace, and the result is empty or starts with a visible character |
| Text.TrimEnd | edit.js:34 | the result is a prefix of the input, everything dropped is whitespace, and the result is empty or ends with a visible character |
| Text.TrimEndUnique | edit.js:34 | any prefix with only whitespace after it and a visible last character is what `TrimEnd` returns |
| Text.TrimIdempotent | edit.js:34 | trimming the console copy again changes nothing |
| Logger.LogFileName | edit.js:25-26 | the name is `editor-`, then a prefix of the timestamp, then `.log`; that prefix has no `T` and is followed by a `T` unless it is the whole timestamp |
| Logger.DatePart | edit.js:25 | the date part is a prefix of the timestamp without `T`, and when shorter than the timestamp it is followed by `T` (the first element of `split('T')`) |
| Logger.FirstIndexOf | edit.js:25 | the index is within the string, no earlier character is the one sought, and the character at the index is that character unless it is the end |
| Logger.LogFileNameOfDateAndTime | edit.js:25-26 | for a timestamp `date + "T" + time` with no `T` in the date, the log file is `editor-<date>.log` |
| Logger.LogFileNameOfIso | edit.js:25-26 | for a 24-character `toISOString` timestamp the log file is `editor-YYYY-MM-DD.log`, from the first ten characters |
| Text.Contains | edit.js:75 | `includes` never finds a pattern longer than the text and always finds one the text starts with |
| Text.ContainsIffOccurs | edit.js:75 | `includes` holds exactly when the pattern occurs at some position |
| Text.ReplaceAll | edit.js:77 | a string without the pattern is returned unchanged |
| Text.ReplaceAllIsSplitJoin | edit.js:77 | replacing every occurrence equals splitting on the pattern and joining with the replacement |
| Text.SplitIsLeftmost | edit.js:77 | the split gives the string back when joined with the pattern, and each separator it uses is the leftmost occurrence after the previous one, so the occurrences replaced are taken left to right without overlap |
| Text.LeftmostSplitUnique | edit.js:77 | there is only one leftmost split of a string, so the split above is fully determined |
| Text.LaterSeparatorNotLeftmost | edit.js:77 | a piece that runs past an earlier occurrence of the pattern contains it, so it cannot be a leftmost piece |
| Text.SplitJoinRoundTrip | edit.js:77 | splitting on the pattern and joining with the pattern restores the string |
| Text.ReplaceAllSelfIsIdentity | edit.js:77 | replacing the pattern with itself is the identity |
| Text.ContainsIffSplitMany | edit.js:75-77 | the pattern occurs exactly when the split has more than one piece, so the `includes` test and the replace agree on whether there is an occurrence to replace (a replacement equal to the search string still rewrites the file unchanged and logs UPDATED) |
| Text.Split | edit.js:77 | splitting always yields at least one piece |
| Editor.EditFile | edit.js:68-90 | exactly one message, naming the file; a read error iff the read fails, with its cause; SKIPPED iff readable and without the search string; UPDATED iff readable, matching and writable; a write error iff readable, matching and the write fails, with its cause; only UPDATED changes the file, to the replace-all of its text |
| Editor.PathText | edit.js:54 | a path's text is the directory argument alone for the root, and otherwise the directory argument, `/`, and the names from the root down joined with `/`; so it starts with the directory argument and ends with the entry's own name |
| Editor.Render | edit.js:48-102 | the text logged for each message, as the script writes it; what these texts convey is stated by `Editor.RenderNamesFile` and `Editor.ClassifyRender` |
| Editor.RenderNamesFile | edit.js:70-89 | the ERROR, UPDATED and SKIPPED lines about a file contain that file's path text |
| Editor.ClassifyRender | edit.js:48-89 | every rendered log line is told by its prefix to be what its message means: `ERROR: ` for the four failures, `UPDATED: `, `SKIPPED: ` or a plain information line |
| Editor.WalkDir | edit.js:44-50 | the walk keeps the tree's layout, kinds and flags; a directory that cannot be listed is left as is and yields exactly one scan error with its cause; which errors the walk logs, and how many, is stated by `WalkProofs.WalkDirTally` |
| Editor.WalkEntries | edit.js:53 | the entries keep their layout after each is handled; which errors the walk logs, and how many, is stated by `WalkProofs.WalkDirTally` |
| Editor.WalkEntry | edit.js:54-66 | an entry keeps its name and stat flag and its node keeps its layout; a failed stat leaves the entry alone and yields exactly one stat error with its cause; an entry that is neither file nor directory is left alone and, once stat-ed, logs nothing |
| WalkProofs.ReachedIsLookup | edit.js:46-66 | a node the walk gets to through listable directories and stat-able entries is the node at that path |
| WalkProofs.ReachedInIsLookupIn | edit.js:53-65 | the same within one directory's entries |
| WalkProofs.ReachedInHasName | edit.js:53-54 | a path reached through a directory starts with the name of one of its entries |
| WalkProofs.WalkDirAccounted | edit.js:46-90 | every file message of a walk names a regular file the walk gets to and is exactly that file's decision |
| WalkProofs.WalkEntriesAccounted | edit.js:53-90 | the same for the entries of one directory |
| WalkProofs.WalkEntryAccounted | edit.js:54-90 | the same for one entry |
| WalkProofs.WalkDirOutcomeOnce | edit.js:46-90 | every regular file the walk gets to has its decision's message logged exactly once |
| WalkProofs.WalkEntriesOutcomeOnce | edit.js:53-90 | the same for the entries of one directory |
| WalkProofs.WalkEntryOutcomeOnce | edit.js:54-90 | the same for the entry through which the path goes |
| WalkProofs.WalkDirContent | edit.js:63-86 | after the walk each regular file holds what its decision left if the walk got to it, and its old text otherwise |
| WalkProofs.WalkEntriesContent | edit.js:53-86 | the same for the entries of one directory |
| WalkProofs.WalkDirSelfReplace | edit.js:77-80 | replacing the search string with itself leaves the whole tree unchanged |
| WalkProofs.WalkEntriesSelfReplace | edit.js:53-80 | the same for the entries of one directory |
| WalkProofs.SecondRunOnlySkips | edit.js:75-90 | on a tree whose reached files are readable and free of the search string, every file message is SKIPPED and no file changes |
| WalkProofs.RunOutcomeOnce | edit.js:98-103 | an accepted run logs the decision for every regular file it reaches below the directory argument exactly once |
| WalkProofs.RunAccounted | edit.js:98-103 | every file message of an accepted run is the decision for a regular file the run reaches |
| WalkProofs.RunContent | edit.js:98-103 | after an accepted run each regular file holds what its decision left if the run reached it, and its old text otherwise |
| WalkProofs.WalkDirTally | edit.js:46-66 | every message of a walk is about a file, a listing or a stat; each failing listing the walk meets (including a root that is not a directory) and each failing stat is logged exactly once with its cause; there is one further message per regular file edited; nothing else, so entries that are neither file nor directory log nothing |
| WalkProofs.WalkEntriesTally | edit.js:53-66 | the same for the entries of one directory, so no entry's messages are lost or added |
| WalkProofs.WalkEntryTally | edit.js:57-66 | the same for one entry |
| WalkProofs.RunTally | edit.js:98-103 | the same for the outcomes of an accepted run |
| Scenarios.WalkPlainFile | edit.js:57-90 | a readable, writable file is rewritten and logged UPDATED when it holds the search string, and left alone and logged SKIPPED otherwise |
| Scenarios.WalkSample | edit.js:44-96 | the outcome on a two-level tree, whatever the two files hold |
| Scenarios.HelloBecomesHi | edit.js:75-85 | replacing `hello` by `hi` turns `hello world` and `hello there` into `hi world` and `hi there` and logs two UPDATED lines |
| Scenarios.AbsentPatternSkipsAll | edit.js:87-90 | a pattern found in no file leaves the tree unchanged and logs two SKIPPED lines |
| Scenarios.UnreadableFileLogsError | edit.js:68-72 | an unreadable file logs one read error naming it and nothing else |

## Left out

- Real file-system calls and their scheduling: the tree and its flags stand for
  `readdir`, `stat`, `readFile` and `writeFile`; the order in which callbacks finish is
  not modelled, which is why outcomes form a multiset.
- The clock: every timestamp is an input string.
- The logs directory: `os.homedir`, `path.join`, `existsSync` and `mkdirSync`
  (edit.js:17-22) are I/O; only the file name is modelled.
- Editor.Run: a failure to create the logs directory (edit.js:21) throws after the
  argument gate and before the banner, ending the process with a non-zero status and
  no walk. The model does not represent it, so its claim of status 0 for accepted
  arguments holds only when that directory exists or can be created.
- Appending to the log file and reporting a failed append (edit.js:37-41) are I/O.
- `console.error` after a scan error (edit.js:49), `process.exit` and the console
  streams are left out. The model keeps the exit status, the usage text and the logged
  messages.
- Editor.EditFile: the full `RegExp` semantics of edit.js:77 are not modelled. The
  model does not cover metacharacters in the search string, an invalid pattern throwing,
  or `$&`/`$1` substitutions in the replacement. The contract requires the literal case
  (`Editor.IsLiteralCase`). Outside that case `includes` and the regular-expression
  replace can disagree.
- Editor.WalkDir: the same literal-case requirement applies.
- Editor.Run: requires the literal case of its search and replacement arguments when
  the arguments are accepted; rejected arguments (an empty one, or fewer than three)
  are modelled whatever they contain (`Scenarios.EmptyArgumentRejectedWhateverThePattern`).
- Symbolic links and cycles: a node is what `stat` reports after following links, and
  the tree is finite.
- WalkProofs.RunContent: assumes that no two paths in the walked tree name the same
  file. In the source, a hard link or a symbolic link to a file that is also in the tree
  shares one file between two paths. The second read can then see the first write, for
  example `a` to `aa` giving `aaaa`, or the second path being logged SKIPPED. The model
  gives each path its own independent `File` node, so this and `WalkProofs.WalkDirContent`
  describe a tree without such sharing.
- WalkProofs.RunContent: also assumes that the walked tree does not contain the logs
  directory (edit.js:17). When the directory argument is the home directory or one of its
  ancestors, the walk reaches the run's own `editor-<date>.log`. The banner line
  `Search String: …` (edit.js:101) has already been appended to it, so its `includes`
  test succeeds. The walk rewrites it (edit.js:75-85) while later appends (edit.js:37)
  are still landing, so its final text is neither its old text nor its replace-all. This
  looks unintended in the source, but the model has no log file in the tree to show it.
- Path normalisation by `path.join`: paths are the names joined with `/`.
- A failed write is assumed to leave the file's old text; partial writes are not
  represented.
- WalkProofs.RunContent: file contents are modelled as the decoded text. The script
  reads with `readFile(…, 'utf8')` (edit.js:68), which turns each invalid byte sequence
  into U+FFFD, and writes the replaced text back (edit.js:80) as UTF-8. So a file that is
  not valid UTF-8 and contains the search string changes in more than its replaced
  occurrences: its invalid bytes become U+FFFD as well. This and
  `WalkProofs.WalkDirContent` describe the decoded text only; files without a match are
  never written and keep their bytes.
- The error text when the directory argument is not a directory is the fixed constant
  `Editor.NotADirectory`. It stands in for Node's text, which also names the directory
  (`…, scandir '<dir>'`). The other causes come from the tree's flags.

=== FILE: cli.dfy ===
/**
 * The command-line gate at edit.js:8-14: the first three positional arguments are the
 * directory, the search string and the replacement string, and each must be present
 * and non-empty (JavaScript treats both `undefined` and `""` as false).
 */
module Cli {
  import opened Wrappers

  /** A run's parameters, fixed once the arguments are accepted. */
  datatype Invocation = Invocation(directory: string, search: string, replacement: string)

  /** The message written to the error stream when the arguments are rejected. */
  const UsageText: string := "Usage: file-editor.exe <directory> <searchString> <replaceString>"

  /** The exit status of a rejected run. */
  const UsageExitCode: int := 1

  /** Positional argument `i`, or `None` when fewer were given (JavaScript's `undefined`). */
  function Arg(args: seq<string>, i: nat): Option<string>
  {
    if i < |args| then Some(args[i]) else None
  }

  /** JavaScript truthiness of an optional string: present and non-empty. */
  predicate Truthy(a: Option<string>)
  {
    a.Some? && a.value != []
  }

  /** Reads the three positional arguments (the ones after the interpreter and script path). */
  function ParseArgs(args: seq<string>): (r: Result<Invocation, string>)
    ensures r.Success? <==> |args| >= 3 && args[0] != [] && args[1] != [] && args[2] != []
    ensures r.Success? ==> r.value == Invocation(args[0], args[1], args[2])
    ensures r.Failure? ==> r.error == UsageText
    ensures r.Success? ==> r.value.search != []
  {
    var d, s, p := Arg(args, 0), Arg(args, 1), Arg(args, 2);
    if !Truthy(d) || !Truthy(s) || !Truthy(p) then Failure(UsageText)
    else Success(Invocation(d.value, s.value, p.value))
  }
}

=== FILE: editor.dfy ===
/**
 * The editor proper (edit.js:44-103): the messages it logs, the decision it takes for
 * each regular file, the recursive walk over the tree and the driver that ties the
 * argument gate to the walk.
 *
 * The callbacks of `edit.js` complete in an order the model does not fix, so the
 * messages of a walk form a multiset. The four banner lines are logged before the walk
 * starts and keep their order.
 */
module Editor {
  import opened Wrappers
  import opened Text
  import opened FileTree
  import Cli

  /** One logged message. File messages carry the file's path relative to the walk's root. */
  datatype Msg =
    | Starting
    | ShowDirectory(directory: string)
    | ShowSearch(search: string)
    | ShowReplacement(replacement: string)
    | ScanFailed(cause: string)
    | StatFailed(cause: string)
    | ReadFailed(path: seq<string>, cause: string)
    | WriteFailed(path: seq<string>, cause: string)
    | Updated(path: seq<string>)
    | Skipped(path: seq<string>)
  {
    /** The message reports the outcome for one regular file. */
    predicate IsFileMsg()
    {
      ReadFailed? || WriteFailed? || Updated? || Skipped?
    }
  }

  /** Stands in for the error `readdir` reports when the walk's root is not a directory (Node's text also names the directory). */
  const NotADirectory: string := "Error: ENOTDIR: not a directory"

  /** Characters with a meaning in JavaScript regular-expression syntax. */
  const RegexMeta: set<char> := {'\\', '^', '$', '.', '|', '?', '*', '+', '(', ')', '[', ']', '{', '}'}

  /**
   * The search string and replacement for which `new RegExp(search, 'g')` matches exactly
   * the literal occurrences of `search` and the replacement is inserted verbatim: no
   * regular-expression metacharacter in the search string and no `$` in the replacement.
   */
  predicate IsLiteralCase(search: string, replacement: string)
  {
    && (forall i :: 0 <= i < |search| ==> search[i] !in RegexMeta)
    && (forall i :: 0 <= i < |replacement| ==> replacement[i] != '$')
  }

  /** The text of a path: the root followed by each name, joined with `/`. */
  function PathText(root: string, rel: seq<string>): (t: string)
    ensures |root| <= |t| && t[..|root|] == root
    ensures rel == [] ==> t == root
    ensures rel != [] ==> |rel[|rel| - 1]| < |t| && t[|t| - |rel[|rel| - 1]|..] == rel[|rel| - 1]
    ensures rel != [] ==> t == root + "/" + Join(rel, "/")
    decreases |rel|
  {
    if rel == [] then root
    else
      var init, last := rel[..|rel| - 1], rel[|rel| - 1];
      assert rel == init + [last];
      var head := PathText(root, init);
      PathTextStep(root, init, last, head);
      head + "/" + last
  }

  /** Appending one name to a path's text keeps the root in front and extends the join. */
  lemma PathTextStep(root: string, init: seq<string>, last: string, head: string)
    requires |root| <= |head| && head[..|root|] == root
    requires init == [] ==> head == root
    requires init != [] ==> head == root + "/" + Join(init, "/")
    ensures |root| <= |head + "/" + last| && (head + "/" + last)[..|root|] == root
    ensures |last| < |head + "/" + last| && (head + "/" + last)[|head| + 1..] == last
    ensures head + "/" + last == root + "/" + Join(init + [last], "/")
  {
    var t := head + "/" + last;
    assert t[..|root|] == head[..|root|];
    assert t[|head| + 1..] == last;
    if init == [] {
      assert init + [last] == [last];
    } else {
      JoinSnoc(init, last, "/");
    }
  }

  /** The prefixes that mark outcome lines in the log. */
  const ErrorTag: string := "ERROR: "
  const UpdatedTag: string := "UPDATED: "
  const SkippedTag: string := "SKIPPED: "

  /** The text logged for a message, paths being relative to `root`. */
  function Render(root: string, m: Msg): string
  {
    match m
    case Starting => "Starting file editor script..."
    case ShowDirectory(d) => "Directory: " + d
    case ShowSearch(s) => "Search String: " + s
    case ShowReplacement(r) => "Replace String: " + r
    case ScanFailed(c) => ErrorTag + "Unable to scan directory: " + c
    case StatFailed(c) => ErrorTag + "Unable to stat file/directory: " + c
    case ReadFailed(p, c) => ErrorTag + "Unable to read file: " + PathText(root, p) + " - " + c
    case WriteFailed(p, c) => ErrorTag + "Unable to write file: " + PathText(root, p) + " - " + c
    case Updated(p) => UpdatedTag + PathText(root, p)
    case Skipped(p) => SkippedTag + PathText(root, p) + " (String not found)"
  }

  /** The log line of a file message names the file's path. */
  lemma RenderNamesFile(root: string, m: Msg)
    requires m.IsFileMsg()
    ensures Contains(Render(root, m), PathText(root, m.path))
  {
    var path := PathText(root, m.path);
    var line := Render(root, m);
    var (before, after) := match m
      case ReadFailed(_, c) => (ErrorTag + "Unable to read file: ", " - " + c)
      case WriteFailed(_, c) => (ErrorTag + "Unable to write file: ", " - " + c)
      case Updated(_) => (UpdatedTag, [])
      case Skipped(_) => (SkippedTag, " (String not found)");
    assert line == before + path + after;
    ContainsMiddle(before, path, after);
  }

  /** What a log line reports, as a reader of the log tells it by its prefix. */
  datatype Verdict = Info | ErrorLine | UpdatedLine | SkippedLine

  /** Tells the kind of a logged line by its prefix. */
  function Classify(line: string): Verdict
  {
    if StartsWith(line, ErrorTag) then ErrorLine
    else if StartsWith(line, UpdatedTag) then UpdatedLine
    else if StartsWith(line, SkippedTag) then SkippedLine
    else Info
  }

  /** The kind of line a message is meant to be. */
  function VerdictOf(m: Msg): Verdict
  {
    match m
    case ScanFailed(_) | StatFailed(_) | ReadFailed(_, _) | WriteFailed(_, _) => ErrorLine
    case Updated(_) => UpdatedLine
    case Skipped(_) => SkippedLine
    case _ => Info
  }

  /** Each message's log line is recognised as the kind of line it is meant to be. */
  lemma ClassifyRender(root: string, m: Msg)
    ensures Classify(Render(root, m)) == VerdictOf(m)
  {
    var line := Render(root, m);
    match m
    case Starting => assert line[0] == 'S' && line[1] == 't';
    case ShowDirectory(d) => assert line[0] == 'D';
    case ShowSearch(s) => assert line[0] == 'S' && line[1] == 'e';
    case ShowReplacement(r) => assert line[0] == 'R';
    case ScanFailed(c) => assert line[..7] == ErrorTag;
    case StatFailed(c) => assert line[..7] == ErrorTag;
    case ReadFailed(p, c) => assert line[..7] == ErrorTag;
    case WriteFailed(p, c) => assert line[..7] == ErrorTag;
    case Updated(p) => assert line[0] == 'U' && line[..9] == UpdatedTag;
    case Skipped(p) => assert line[0] == 'S' && line[..9] == SkippedTag;
  }

  /**
   * The decision for one regular file at `path` (edit.js:68-90): read it; if the search
   * string does not occur, skip it; otherwise replace every occurrence and write the
   * result back. Exactly one message comes out, and it names the file.
   */
  function EditFile(path: seq<string>, f: Node, search: string, replacement: string): (r: (Node, Msg))
    requires f.File? && search != [] && IsLiteralCase(search, replacement)
    ensures r.1.IsFileMsg() && r.1.path == path
    ensures r.1.ReadFailed? <==> f.read.Fail?
    ensures r.1.Skipped? <==> f.read.Ok? && !Contains(f.content, search)
    ensures r.1.Updated? <==> f.read.Ok? && Contains(f.content, search) && f.write.Ok?
    ensures r.1.WriteFailed? <==> f.read.Ok? && Contains(f.content, search) && f.write.Fail?
    ensures r.1.ReadFailed? ==> r.1.cause == f.read.cause
    ensures r.1.WriteFailed? ==> r.1.cause == f.write.cause
    ensures r.0 == (if r.1.Updated? then f.(content := ReplaceAll(f.content, search, replacement)) else f)
  {
    match f.read
    case Fail(c) => (f, ReadFailed(path, c))
    case Ok =>
      if !Contains(f.content, search) then (f, Skipped(path))
      else
        var updated := ReplaceAll(f.content, search, replacement);
        match f.write
        case Fail(c) => (f, WriteFailed(path, c))
        case Ok => (f.(content := updated), Updated(path))
  }

  /**
   * `editFilesInDirectory` (edit.js:44-96) on the directory at `at`: list it, then handle
   * each entry. The result is the tree afterwards and the messages logged.
   */
  function WalkDir(at: seq<string>, n: Node, search: string, replacement: string): (r: (Node, multiset<Msg>))
    requires search != [] && IsLiteralCase(search, replacement)
    ensures Shape(r.0) == Shape(n)
    ensures n.Dir? && n.list.Fail? ==> r.0 == n && r.1 == multiset{ScanFailed(n.list.cause)}
    decreases n
  {
    match n
    case Dir(es, Ok) =>
      var (es', ms) := WalkEntries(at, es, search, replacement);
      (Dir(es', Ok), ms)
    case Dir(_, Fail(c)) => (n, multiset{ScanFailed(c)})
    case _ => (n, multiset{ScanFailed(NotADirectory)})
  }

  /** The entries of one directory, each handled independently; their messages are pooled. */
  function WalkEntries(at: seq<string>, es: seq<Entry>, search: string, replacement: string): (r: (seq<Entry>, multiset<Msg>))
    requires search != [] && IsLiteralCase(search, replacement)
    ensures ShapeIn(r.0) == ShapeIn(es)
    decreases es
  {
    if es == [] then ([], multiset{})
    else
      var (e', m1) := WalkEntry(at, es[0], search, replacement);
      var (rest, m2) := WalkEntries(at, es[1..], search, replacement);
      ([e'] + rest, m1 + m2)
  }

  /**
   * One entry of the directory at `at` (edit.js:54-92): stat it; recurse into a
   * directory, edit a regular file, ignore anything else.
   */
  function WalkEntry(at: seq<string>, e: Entry, search: string, replacement: string): (r: (Entry, multiset<Msg>))
    requires search != [] && IsLiteralCase(search, replacement)
    ensures r.0.name == e.name && r.0.stat == e.stat && Shape(r.0.node) == Shape(e.node)
    ensures e.stat.Fail? ==> r.0 == e && r.1 == multiset{StatFailed(e.stat.cause)}
    ensures e.node.Special? ==> r.0 == e && (e.stat.Ok? ==> r.1 == multiset{})
    decreases e
  {
    match e.stat
    case Fail(c) => (e, multiset{StatFailed(c)})
    case Ok =>
      match e.node
      case Dir(_, _) =>
        var (n', ms) := WalkDir(at + [e.name], e.node, search, replacement);
        (e.(node := n'), ms)
      case File(_, _, _) =>
        var (n', m) := EditFile(at + [e.name], e.node, search, replacement);
        (e.(node := n'), multiset{m})
      case Special => (e, multiset{})
  }

  /** Everything one run leaves behind. */
  datatype RunResult = RunResult(
    exitCode: int,
    errorOutput: string,
    banner: seq<Msg>,
    tree: Node,
    outcomes: multiset<Msg>)

  /**
   * A whole run (edit.js:8-14, 98-103) on the tree found at the directory argument:
   * reject bad arguments with the usage text and status 1 before touching anything,
   * otherwise log the banner and walk the tree once.
   */
  function Run(args: seq<string>, tree: Node): (r: RunResult)
    requires Cli.ParseArgs(args).Success? ==> IsLiteralCase(args[1], args[2])
    ensures r.exitCode == Cli.UsageExitCode <==> Cli.ParseArgs(args).Failure?
    ensures r.exitCode == Cli.UsageExitCode ==>
      r.errorOutput == Cli.UsageText && r.banner == [] && r.tree == tree && r.outcomes == multiset{}
    ensures r.exitCode != Cli.UsageExitCode ==>
      && r.exitCode == 0
      && r.banner == [Starting, ShowDirectory(args[0]), ShowSearch(args[1]), ShowReplacement(args[2])]
      && (r.tree, r.outcomes) == WalkDir([], tree, args[1], args[2])
      && Shape(r.tree) == Shape(tree)
  {
    match Cli.ParseArgs(args)
    case Failure(usage) => RunResult(Cli.UsageExitCode, usage, [], tree, multiset{})
    case Success(inv) =>
      var banner := [Starting, ShowDirectory(inv.directory), ShowSearch(inv.search), ShowReplacement(inv.replacement)];
      var (tree', ms) := WalkDir([], tree, inv.search, inv.replacement);
      RunResult(0, [], banner, tree', ms)
  }
}

=== FILE: filetree.dfy ===
/**
 * The file system below the directory the editor is given, as a finite tree. Every
 * I/O call the walk makes on a node is represented by an `Io` flag on that node: the
 * flag says whether `readdir`, `stat`, `readFile` or `writeFile` succeeds there and,
 * if not, the error text it reports. Symbolic links are not represented: a node is
 * what `stat` reports after following links, and the tree has no cycles.
 */
module FileTree {
  import opened Wrappers

  /** The outcome an I/O call will have. */
  datatype Io = Ok | Fail(cause: string)

  /**
   * A node as `stat` classifies it: a regular file with its text, a directory with its
   * entries, or anything else (socket, FIFO, device), which the editor leaves alone.
   */
  datatype Node =
    | File(content: string, read: Io, write: Io)
    | Dir(entries: seq<Entry>, list: Io)
    | Special

  /** A directory entry: its name, whether `stat` on it succeeds, and the node it names. */
  datatype Entry = Entry(name: string, stat: Io, node: Node)

  /** Some entry of `es` is called `name`. */
  predicate HasName(es: seq<Entry>, name: string)
    decreases es
  {
    es != [] && (es[0].name == name || HasName(es[1..], name))
  }

  /** No two entries of `es` share a name. */
  predicate DistinctNames(es: seq<Entry>)
    decreases es
  {
    es == [] || (!HasName(es[1..], es[0].name) && DistinctNames(es[1..]))
  }

  /** Every directory in the tree lists each name at most once, as a real directory does. */
  predicate WellFormed(n: Node)
    decreases n
  {
    match n
    case Dir(es, _) => DistinctNames(es) && EntriesWellFormed(es)
    case _ => true
  }

  /** Every node under these entries is well formed. */
  predicate EntriesWellFormed(es: seq<Entry>)
    decreases es
  {
    es == [] || (WellFormed(es[0].node) && EntriesWellFormed(es[1..]))
  }

  /** The node at relative path `rel` below `n`, regardless of whether the walk can get there. */
  function Lookup(n: Node, rel: seq<string>): Option<Node>
    decreases n
  {
    if rel == [] then Some(n)
    else match n
      case Dir(es, _) => LookupIn(es, rel)
      case _ => None
  }

  /** The node at `rel` below the first entry of `es` named `rel[0]`. */
  function LookupIn(es: seq<Entry>, rel: seq<string>): Option<Node>
    requires rel != []
    decreases es
  {
    if es == [] then None
    else if es[0].name == rel[0] then Lookup(es[0].node, rel[1..])
    else LookupIn(es[1..], rel)
  }

  /**
   * The node at `rel` below `n` if the walk gets there: every directory on the way
   * can be listed and every entry on the way can be stat-ed.
   */
  function Reached(n: Node, rel: seq<string>): Option<Node>
    decreases n
  {
    if rel == [] then Some(n)
    else match n
      case Dir(es, Ok) => ReachedIn(es, rel)
      case _ => None
  }

  /** The node at `rel` below the first entry of `es` named `rel[0]`, if that entry can be stat-ed and the walk continues. */
  function ReachedIn(es: seq<Entry>, rel: seq<string>): Option<Node>
    requires rel != []
    decreases es
  {
    if es == [] then None
    else if es[0].name == rel[0] then
      (if es[0].stat.Ok? then Reached(es[0].node, rel[1..]) else None)
    else ReachedIn(es[1..], rel)
  }

  /** The tree with every file's text blanked: its layout, kinds and I/O flags. */
  function Shape(n: Node): Node
    decreases n
  {
    match n
    case File(_, r, w) => File([], r, w)
    case Dir(es, l) => Dir(ShapeIn(es), l)
    case Special => Special
  }

  /** `Shape` applied under each entry. */
  function ShapeIn(es: seq<Entry>): seq<Entry>
    decreases es
  {
    if es == [] then [] else [es[0].(node := Shape(es[0].node))] + ShapeIn(es[1..])
  }
}

=== FILE: logger.dfy ===
/**
 * Formatting done by the editor's logger (edit.js:25-34): the line appended to the
 * log file, its copy on the console, and the name of the day's log file. The clock is
 * not modelled: every timestamp is an input string, as `Date.prototype.toISOString`
 * would produce it.
 */
module Logger {
  import opened Wrappers
  import opened Text

  /** The line appended to the log file for one message: `[<timestamp>] <message>` and a newline. */
  function LogEntry(timestamp: string, message: string): (e: string)
    ensures |e| == |timestamp| + |message| + 4
    ensures e[0] == '[' && e[1..|timestamp| + 1] == timestamp && e[|timestamp| + 1..|timestamp| + 3] == "] "
    ensures e[|timestamp| + 3..|e| - 1] == message && e[|e| - 1] == '\n'
  {
    "[" + timestamp + "] " + message + "\n"
  }

  /** What the console shows for the same message: the entry with surrounding whitespace trimmed. */
  function ConsoleLine(timestamp: string, message: string): (c: string)
    ensures |c| <= |timestamp| + |message| + 4
    ensures c == [] || (!IsSpace(c[0]) && !IsSpace(c[|c| - 1]))
  {
    Trim(LogEntry(timestamp, message))
  }

  /** Index of the first occurrence of `c` in `s`, or `|s|` when there is none. */
  function FirstIndexOf(s: string, c: char): (k: nat)
    ensures k <= |s|
    ensures c !in s[..k]
    ensures k < |s| ==> s[k] == c
  {
    if s == [] then 0
    else if s[0] == c then 0
    else
      var k := FirstIndexOf(s[1..], c);
      assert s[..k + 1] == [s[0]] + s[1..][..k];
      k + 1
  }

  /** Recovers timestamp and message from a log-file line whose timestamp holds no `]`. */
  function ParseLogEntry(line: string): Option<(string, string)>
  {
    if |line| < 4 || line[0] != '[' || line[|line| - 1] != '\n' then None
    else
      var body := line[1..|line| - 1];
      var k := FirstIndexOf(body, ']');
      if k + 1 < |body| && body[k + 1] == ' ' then Some((body[..k], body[k + 2..])) else None
  }

  /** A log-file line carries its timestamp and message intact. */
  lemma LogEntryRoundTrip(timestamp: string, message: string)
    requires ']' !in timestamp
    ensures ParseLogEntry(LogEntry(timestamp, message)) == Some((timestamp, message))
  {
    var line := LogEntry(timestamp, message);
    var body := line[1..|line| - 1];
    assert body == timestamp + "] " + message;
    var k := FirstIndexOf(body, ']');
    assert body[..|timestamp|] == timestamp;
    assert body[|timestamp|] == ']';
    if k < |timestamp| {
      assert false;
    }
    if k > |timestamp| {
      assert false;
    }
    assert body[k + 2..] == message;
  }

  /**
   * When the message has a visible character, the console copy is the log-file line
   * without its newline and without the message's trailing whitespace.
   */
  lemma ConsoleLineOfVisibleMessage(timestamp: string, message: string, k: int)
    requires 0 <= k < |message| && !IsSpace(message[k])
    ensures ConsoleLine(timestamp, message) == "[" + timestamp + "] " + TrimEnd(message)
  {
    var entry := LogEntry(timestamp, message);
    var head := "[" + timestamp + "] ";
    var b := message + "\n";
    assert entry == head + b;
    TrimStartOfVisibleHead(entry);
    TrimEndAppend(head, b, k);
    TrimEndDropsNewline(message, k);
  }

  /** A message made only of whitespace leaves just the bracketed timestamp on the console. */
  lemma ConsoleLineOfBlankMessage(timestamp: string, message: string)
    requires forall k :: 0 <= k < |message| ==> IsSpace(message[k])
    ensures ConsoleLine(timestamp, message) == "[" + timestamp + "]"
  {
    var entry := LogEntry(timestamp, message);
    TrimStartOfVisibleHead(entry);
    var head := "[" + timestamp + "]";
    var tail := " " + message + "\n";
    assert entry == head + tail;
    assert forall i :: 0 <= i < |tail| ==> IsSpace(tail[i]) by {
      forall i | 0 <= i < |tail| ensures IsSpace(tail[i]) {
        if 0 < i < |tail| - 1 {
          assert tail[i] == message[i - 1];
        }
      }
    }
    assert forall i :: |head| <= i < |entry| ==> entry[i] == tail[i - |head|];
    TrimEndUnique(entry, head);
  }

  /** `iso.split('T')[0]`: everything before the first `T`, or the whole string when there is none. */
  function DatePart(iso: string): (d: string)
    ensures |d| <= |iso| && d == iso[..|d|]
    ensures 'T' !in d
    ensures |d| < |iso| ==> iso[|d|] == 'T'
  {
    iso[..FirstIndexOf(iso, 'T')]
  }

  /** Name of the day's log file: `editor-<date>.log`, the date being the part of the ISO timestamp before `T`. */
  function LogFileName(iso: string): (name: string)
    ensures 11 <= |name| && name[..7] == "editor-" && name[|name| - 4..] == ".log"
    ensures |name| - 11 <= |iso| && name[7..|name| - 4] == iso[..|name| - 11]
    ensures 'T' !in name[7..|name| - 4]
    ensures |name| - 11 < |iso| ==> iso[|name| - 11] == 'T'
  {
    "editor-" + DatePart(iso) + ".log"
  }

  /** A character is a decimal digit. */
  predicate IsDigit(c: char)
  {
    '0' <= c <= '9'
  }

  /** `YYYY-MM-DDTHH:mm:ss.sssZ`, the shape `toISOString` gives for years 0 to 9999. */
  predicate IsIsoTimestamp(iso: string)
  {
    && |iso| == 24
    && (forall i :: i in {0, 1, 2, 3, 5, 6, 8, 9, 11, 12, 14, 15, 17, 18, 20, 21, 22} ==> 0 <= i < |iso| && IsDigit(iso[i]))
    && iso[4] == '-' && iso[7] == '-' && iso[10] == 'T'
    && iso[13] == ':' && iso[16] == ':' && iso[19] == '.' && iso[23] == 'Z'
  }

  /** For a timestamp split into date and time at a `T`, the log file is named after the date. */
  lemma LogFileNameOfDateAndTime(date: string, time: string)
    requires 'T' !in date
    ensures LogFileName(date + "T" + time) == "editor-" + date + ".log"
  {
    var iso := date + "T" + time;
    var d := DatePart(iso);
    assert iso[|date|] == 'T';
    if |d| < |date| {
      assert false;
    }
    if |d| > |date| {
      assert false;
    }
    assert d == date;
  }

  /** A well-formed ISO timestamp names the log file after its first ten characters, `YYYY-MM-DD`. */
  lemma {:induction false} LogFileNameOfIso(iso: string)
    requires IsIsoTimestamp(iso)
    ensures LogFileName(iso) == "editor-" + iso[..10] + ".log"
  {
    assert iso == iso[..10] + "T" + iso[11..];
    assert forall i :: 0 <= i < 10 ==> iso[..10][i] != 'T' by {
      forall i | 0 <= i < 10 ensures iso[..10][i] != 'T' {
        assert i in {0, 1, 2, 3, 5, 6, 8, 9} || i == 4 || i == 7;
      }
    }
    LogFileNameOfDateAndTime(iso[..10], iso[11..]);
  }
}

=== FILE: scenarios.dfy ===
/**
 * Concrete runs of the editor on a small tree: a directory holding `a.txt` with
 * "hello world" and a subdirectory `sub` holding `b.txt` with "hello there".
 */
module Scenarios {
  import opened Text
  import opened FileTree
  import opened Editor
  import Cli

  /** The sample tree with `a.txt` holding `a` and `sub/b.txt` holding `b`, every I/O call succeeding. */
  function SampleWith(a: string, b: string): Node
  {
    Dir([Entry("a.txt", Ok, File(a, Ok, Ok)), Entry("sub", Ok, Dir([Entry("b.txt", Ok, File(b, Ok, Ok))], Ok))], Ok)
  }

  /** The sample tree of the scenarios. */
  const Sample: Node := SampleWith("hello world", "hello there")

  /** The search and replacement strings used below are taken literally. */
  lemma SamplesAreLiteral()
    ensures IsLiteralCase("hello", "hi") && IsLiteralCase("xyz", "abc")
  {
  }

  /** A pattern whose first character appears at no position where the pattern would fit does not occur. */
  lemma {:induction false} AbsentWhenHeadAbsent(s: string, p: string)
    requires p != []
    requires forall i :: 0 <= i && i + |p| <= |s| ==> s[i] != p[0]
    ensures !Contains(s, p)
  {
    ContainsIffOccurs(s, p);
    forall i | OccursAt(s, p, i) ensures s[i] == p[0] {
      assert s[i..i + |p|][0] == s[i];
    }
  }

  /** A leading occurrence followed by text that cannot hold the pattern is replaced once. */
  lemma {:induction false} ReplaceLeading(rest: string, p: string, r: string)
    requires p != [] && !Contains(rest, p)
    ensures ReplaceAll(p + rest, p, r) == r + rest
    ensures Contains(p + rest, p)
  {
    var s := p + rest;
    assert StartsWith(s, p);
    assert s[|p|..] == rest;
  }

  /** A directory that can be listed is walked entry by entry. */
  lemma WalkListed(at: seq<string>, es: seq<Entry>, search: string, replacement: string)
    requires search != [] && IsLiteralCase(search, replacement)
    ensures WalkDir(at, Dir(es, Ok), search, replacement) ==
      (Dir(WalkEntries(at, es, search, replacement).0, Ok), WalkEntries(at, es, search, replacement).1)
  {
  }

  /** The entries `[e1, e2]` are handled one after the other and their messages pooled. */
  lemma WalkTwo(at: seq<string>, e1: Entry, e2: Entry, search: string, replacement: string)
    requires search != [] && IsLiteralCase(search, replacement)
    ensures WalkEntries(at, [e1, e2], search, replacement) ==
      ([WalkEntry(at, e1, search, replacement).0, WalkEntry(at, e2, search, replacement).0],
       WalkEntry(at, e1, search, replacement).1 + WalkEntry(at, e2, search, replacement).1)
  {
    var w1 := WalkEntry(at, e1, search, replacement);
    var w2 := WalkEntry(at, e2, search, replacement);
    assert [e1, e2][1..] == [e2];
    WalkOne(at, e2, search, replacement);
    assert WalkEntries(at, [e1, e2], search, replacement) == ([w1.0] + [w2.0], w1.1 + w2.1);
    assert [w1.0] + [w2.0] == [w1.0, w2.0];
  }

  /** A single entry is handled on its own. */
  lemma WalkOne(at: seq<string>, e: Entry, search: string, replacement: string)
    requires search != [] && IsLiteralCase(search, replacement)
    ensures WalkEntries(at, [e], search, replacement) ==
      ([WalkEntry(at, e, search, replacement).0], WalkEntry(at, e, search, replacement).1)
  {
    var w := WalkEntry(at, e, search, replacement);
    assert [e][1..] == [];
    assert WalkEntries(at, [], search, replacement) == ([], multiset{});
    assert WalkEntries(at, [e], search, replacement) == ([w.0] + [], w.1 + multiset{});
    assert [w.0] + [] == [w.0];
    assert w.1 + multiset{} == w.1;
  }

  /** How the walk handles a readable, writable file. */
  lemma WalkPlainFile(at: seq<string>, name: string, c: string, p: string, r: string)
    requires p != [] && IsLiteralCase(p, r)
    ensures WalkEntry(at, Entry(name, Ok, File(c, Ok, Ok)), p, r) ==
      if Contains(c, p) then (Entry(name, Ok, File(ReplaceAll(c, p, r), Ok, Ok)), multiset{Updated(at + [name])})
      else (Entry(name, Ok, File(c, Ok, Ok)), multiset{Skipped(at + [name])})
  {
  }

  /** The subdirectory `sub` holding one readable, writable file `b.txt`. */
  lemma WalkSub(b: string, p: string, r: string)
    requires p != [] && IsLiteralCase(p, r)
    ensures
      var b' := if Contains(b, p) then ReplaceAll(b, p, r) else b;
      var mb := if Contains(b, p) then Updated(["sub", "b.txt"]) else Skipped(["sub", "b.txt"]);
      WalkEntry([], Entry("sub", Ok, Dir([Entry("b.txt", Ok, File(b, Ok, Ok))], Ok)), p, r) ==
        (Entry("sub", Ok, Dir([Entry("b.txt", Ok, File(b', Ok, Ok))], Ok)), multiset{mb})
  {
    var fb := Entry("b.txt", Ok, File(b, Ok, Ok));
    WalkPlainFile(["sub"], "b.txt", b, p, r);
    assert ["sub"] + ["b.txt"] == ["sub", "b.txt"];
    assert [] + ["sub"] == ["sub"];
    WalkOne(["sub"], fb, p, r);
    WalkListed(["sub"], [fb], p, r);
  }

  /** The outcome for the sample tree, whatever the two files hold. */
  lemma WalkSample(a: string, b: string, p: string, r: string)
    requires p != [] && IsLiteralCase(p, r)
    ensures
      var a' := if Contains(a, p) then ReplaceAll(a, p, r) else a;
      var b' := if Contains(b, p) then ReplaceAll(b, p, r) else b;
      var ma := if Contains(a, p) then Updated(["a.txt"]) else Skipped(["a.txt"]);
      var mb := if Contains(b, p) then Updated(["sub", "b.txt"]) else Skipped(["sub", "b.txt"]);
      WalkDir([], SampleWith(a, b), p, r) == (SampleWith(a', b'), multiset{ma, mb})
  {
    var fa := Entry("a.txt", Ok, File(a, Ok, Ok));
    var sub := Entry("sub", Ok, Dir([Entry("b.txt", Ok, File(b, Ok, Ok))], Ok));
    var ma := if Contains(a, p) then Updated(["a.txt"]) else Skipped(["a.txt"]);
    var mb := if Contains(b, p) then Updated(["sub", "b.txt"]) else Skipped(["sub", "b.txt"]);
    WalkPlainFile([], "a.txt", a, p, r);
    assert [] + ["a.txt"] == ["a.txt"];
    WalkSub(b, p, r);
    WalkTwo([], fa, sub, p, r);
    WalkListed([], [fa, sub], p, r);
    assert multiset{ma} + multiset{mb} == multiset{ma, mb};
  }

  /** `p` leads `s` and its first character does not occur in the rest, so it is replaced once by `r`. */
  lemma LeadingOnce(s: string, rest: string, p: string, r: string, t: string)
    requires p != [] && s == p + rest && t == r + rest
    requires forall i :: 0 <= i && i + |p| <= |rest| ==> rest[i] != p[0]
    ensures Contains(s, p) && ReplaceAll(s, p, r) == t
  {
    AbsentWhenHeadAbsent(rest, p);
    ReplaceLeading(rest, p, r);
  }

  /** `hello` leads a sample file and is replaced once by `hi`. */
  lemma HelloLeads(s: string, tail: string, p: string, r: string)
    requires s == "hello" + tail && p == "hello" && r == "hi"
    requires forall i :: 0 <= i && i + 5 <= |tail| ==> tail[i] != 'h'
    ensures Contains(s, p) && ReplaceAll(s, p, r) == "hi" + tail
  {
    LeadingOnce(s, tail, p, r, "hi" + tail);
  }

  /** When both sample files hold the search string, both are rewritten and logged UPDATED. */
  lemma WalkSampleBothMatch(a: string, b: string, a': string, b': string, p: string, r: string)
    requires p != [] && IsLiteralCase(p, r)
    requires Contains(a, p) && ReplaceAll(a, p, r) == a'
    requires Contains(b, p) && ReplaceAll(b, p, r) == b'
    ensures WalkDir([], SampleWith(a, b), p, r) ==
      (SampleWith(a', b'), multiset{Updated(["a.txt"]), Updated(["sub", "b.txt"])})
  {
    WalkSample(a, b, p, r);
  }

  /** Replacing `hello` by `hi` in the sample tree rewrites both files and logs two UPDATED lines. */
  lemma HelloBecomesHi(a: string, b: string, p: string, r: string)
    requires a == "hello world" && b == "hello there" && p == "hello" && r == "hi"
    ensures WalkDir([], SampleWith(a, b), p, r) ==
      (SampleWith("hi world", "hi there"), multiset{Updated(["a.txt"]), Updated(["sub", "b.txt"])})
  {
    SamplesAreLiteral();
    assert Contains(a, p) && ReplaceAll(a, p, r) == "hi world" by {
      HelloLeads(a, " world", p, r);
      assert "hi" + " world" == "hi world";
    }
    assert Contains(b, p) && ReplaceAll(b, p, r) == "hi there" by {
      HelloLeads(b, " there", p, r);
      assert "hi" + " there" == "hi there";
    }
    WalkSampleBothMatch(a, b, "hi world", "hi there", p, r);
  }

  /** `xyz` does not occur in a text without `x`. */
  lemma NoXyz(s: string, p: string)
    requires p == "xyz" && 'x' !in s
    ensures !Contains(s, p)
  {
    AbsentWhenHeadAbsent(s, p);
  }

  /** A pattern found nowhere leaves both files alone and logs two SKIPPED lines. */
  lemma AbsentPatternSkipsAll()
    ensures WalkDir([], Sample, "xyz", "abc") == (Sample, multiset{Skipped(["a.txt"]), Skipped(["sub", "b.txt"])})
  {
    SamplesAreLiteral();
    NoXyz("hello world", "xyz");
    NoXyz("hello there", "xyz");
    WalkSample("hello world", "hello there", "xyz", "abc");
  }

  /** A file that cannot be read logs one ERROR naming it and is neither updated nor skipped. */
  lemma UnreadableFileLogsError()
    ensures
      var t := Dir([Entry("a.txt", Ok, File("hello world", Fail("EACCES"), Ok))], Ok);
      WalkDir([], t, "hello", "hi") == (t, multiset{ReadFailed(["a.txt"], "EACCES")})
  {
    SamplesAreLiteral();
    var a := Entry("a.txt", Ok, File("hello world", Fail("EACCES"), Ok));
    assert [] + ["a.txt"] == ["a.txt"];
    assert WalkEntry([], a, "hello", "hi") == (a, multiset{ReadFailed(["a.txt"], "EACCES")});
    WalkOne([], a, "hello", "hi");
  }

  /** Too few arguments: usage error, status 1, nothing walked. */
  lemma MissingArgumentRejected()
    ensures Run(["/tmp/t", "hello"], Sample) == RunResult(1, Cli.UsageText, [], Sample, multiset{})
  {
  }

  /**
   * The gate rejects an empty argument before any pattern is built, so a
   * search such as `a.b` or a replacement such as `$` never reaches the walk.
   */
  lemma EmptyArgumentRejectedWhateverThePattern(tree: Node)
    ensures Run(["", "a.b", "x"], tree) == RunResult(1, Cli.UsageText, [], tree, multiset{})
    ensures Run(["d", "", "$"], tree) == RunResult(1, Cli.UsageText, [], tree, multiset{})
  {
  }
}

=== FILE: text.dfy ===
/**
 * The string operations the editor relies on: JavaScript's `String.prototype.includes`,
 * a literal global replace, `split`/`join` on a literal separator and `trim`.
 * Strings are sequences of Unicode scalar values (`char`). A lone surrogate, which a
 * JavaScript string can hold, is not representable; text decoded from UTF-8 never
 * contains one.
 */
module Text {

  /** `s` begins with `p`. */
  predicate StartsWith(s: string, p: string)
  {
    |p| <= |s| && s[..|p|] == p
  }

  /** `p` occurs in `s` starting at index `i`. */
  predicate OccursAt(s: string, p: string, i: int)
  {
    0 <= i && i + |p| <= |s| && s[i..i + |p|] == p
  }

  /** `s.includes(p)`: `p` occurs somewhere in `s` as a contiguous substring. */
  function Contains(s: string, p: string): (r: bool)
    ensures r ==> |p| <= |s|
    ensures StartsWith(s, p) ==> r
    decreases |s|
  {
    if |s| < |p| then false
    else if StartsWith(s, p) then true
    else Contains(s[1..], p)
  }

  /** `Contains` holds exactly when there is a position where `p` occurs. */
  lemma {:induction false} ContainsIffOccurs(s: string, p: string)
    ensures Contains(s, p) <==> exists i :: OccursAt(s, p, i)
    decreases |s|
  {
    if |s| < |p| {
      assert forall i :: !OccursAt(s, p, i);
    } else if StartsWith(s, p) {
      assert OccursAt(s, p, 0);
    } else {
      ContainsIffOccurs(s[1..], p);
      assert forall i :: OccursAt(s[1..], p, i) ==> OccursAt(s, p, i + 1) by {
        forall i | OccursAt(s[1..], p, i) ensures OccursAt(s, p, i + 1) {
          assert s[i + 1..i + 1 + |p|] == s[1..][i..i + |p|];
        }
      }
      assert forall i :: OccursAt(s, p, i) ==> OccursAt(s[1..], p, i - 1) by {
        forall i | OccursAt(s, p, i) ensures OccursAt(s[1..], p, i - 1) {
          assert i != 0;
          assert s[1..][i - 1..i - 1 + |p|] == s[i..i + |p|];
        }
      }
    }
  }

  /**
   * Replaces every occurrence of the non-empty `p` in `s` by `r`, scanning left to right:
   * after a match the scan resumes just past it, so matches never overlap.
   */
  function ReplaceAll(s: string, p: string, r: string): (t: string)
    requires p != []
    ensures !Contains(s, p) ==> t == s
    decreases |s|
  {
    if |s| < |p| then s
    else if StartsWith(s, p) then r + ReplaceAll(s[|p|..], p, r)
    else [s[0]] + ReplaceAll(s[1..], p, r)
  }

  /** `s.split(p)` for a non-empty literal separator `p`. */
  function Split(s: string, p: string): (parts: seq<string>)
    requires p != []
    ensures |parts| >= 1
    decreases |s|
  {
    if |s| < |p| then [s]
    else if StartsWith(s, p) then [[]] + Split(s[|p|..], p)
    else
      var rest := Split(s[1..], p);
      [[s[0]] + rest[0]] + rest[1..]
  }

  /** `parts.join(sep)`. */
  function Join(parts: seq<string>, sep: string): string
  {
    if parts == [] then []
    else if |parts| == 1 then parts[0]
    else parts[0] + sep + Join(parts[1..], sep)
  }

  /**
   * The defining property of a left-to-right split of `s` on `p`: joining the pieces
   * with `p` gives `s` back, no piece but the last can be extended by fewer than `|p|`
   * characters of `p` into an occurrence (so each separator is the leftmost
   * occurrence still available), and the last piece holds no occurrence at all.
   */
  predicate IsLeftmostSplit(s: string, p: string, parts: seq<string>)
    requires p != []
  {
    && |parts| >= 1
    && Join(parts, p) == s
    && (forall i :: 0 <= i < |parts| - 1 ==> !Contains(parts[i] + p[..|p| - 1], p))
    && !Contains(parts[|parts| - 1], p)
  }

  /** Joining after peeling one character off the front of the first piece. */
  lemma {:induction false} JoinConsFirst(c: char, parts: seq<string>, sep: string)
    requires |parts| >= 1
    ensures Join([[c] + parts[0]] + parts[1..], sep) == [c] + Join(parts, sep)
  {
    var q := [[c] + parts[0]] + parts[1..];
    assert q[1..] == parts[1..];
    if |parts| > 1 {
      calc {
        Join(q, sep);
        q[0] + sep + Join(q[1..], sep);
        [c] + parts[0] + sep + Join(parts[1..], sep);
        [c] + (parts[0] + sep + Join(parts[1..], sep));
      }
    }
  }

  /** `Join` with a leading empty piece starts with the separator. */
  lemma {:induction false} JoinEmptyFirst(parts: seq<string>, sep: string)
    requires |parts| >= 1
    ensures Join([[]] + parts, sep) == sep + Join(parts, sep)
  {
    var q := [[]] + parts;
    assert q[1..] == parts;
  }

  /** Replacing every occurrence is splitting on the pattern and joining with the replacement. */
  lemma {:induction false} ReplaceAllIsSplitJoin(s: string, p: string, r: string)
    requires p != []
    ensures ReplaceAll(s, p, r) == Join(Split(s, p), r)
    decreases |s|
  {
    if |s| < |p| {
    } else if StartsWith(s, p) {
      ReplaceAllIsSplitJoin(s[|p|..], p, r);
      JoinEmptyFirst(Split(s[|p|..], p), r);
    } else {
      ReplaceAllIsSplitJoin(s[1..], p, r);
      JoinConsFirst(s[0], Split(s[1..], p), r);
    }
  }

  /** Appending one more part to a non-empty list adds the separator and that part at the end. */
  lemma {:induction false} JoinSnoc(parts: seq<string>, x: string, sep: string)
    requires |parts| >= 1
    ensures Join(parts + [x], sep) == Join(parts, sep) + sep + x
    decreases |parts|
  {
    var q := parts + [x];
    assert q[1..] == parts[1..] + [x];
    if |parts| > 1 {
      JoinSnoc(parts[1..], x, sep);
    } else {
      assert q[1..] == [x];
    }
  }

  /** Splitting on `p` and joining with `p` restores the original string. */
  lemma {:induction false} SplitJoinRoundTrip(s: string, p: string)
    requires p != []
    ensures Join(Split(s, p), p) == s
    decreases |s|
  {
    if |s| < |p| {
    } else if StartsWith(s, p) {
      SplitJoinRoundTrip(s[|p|..], p);
      JoinEmptyFirst(Split(s[|p|..], p), p);
      assert s == p + s[|p|..];
    } else {
      SplitJoinRoundTrip(s[1..], p);
      JoinConsFirst(s[0], Split(s[1..], p), p);
      assert s == [s[0]] + s[1..];
    }
  }

  /** Replacing a pattern with itself is the identity. */
  lemma {:induction false} ReplaceAllSelfIsIdentity(s: string, p: string)
    requires p != []
    ensures ReplaceAll(s, p, p) == s
  {
    ReplaceAllIsSplitJoin(s, p, p);
    SplitJoinRoundTrip(s, p);
  }

  /** A string of the form `a + p + b` contains `p`. */
  lemma ContainsMiddle(a: string, p: string, b: string)
    ensures Contains(a + p + b, p)
  {
    var s := a + p + b;
    assert s[|a|..|a| + |p|] == p;
    assert OccursAt(s, p, |a|);
    ContainsIffOccurs(s, p);
  }

  /** An occurrence in `[c] + tail` that is not at its start lies in `tail`. */
  lemma {:induction false} ContainsAfterHead(c: char, tail: string, p: string)
    requires p != [] && |tail| + 1 >= |p| && !StartsWith([c] + tail, p)
    requires !Contains(tail, p)
    ensures !Contains([c] + tail, p)
  {
    assert ([c] + tail)[1..] == tail;
  }

  /** A prefix of `s` at least `|p|` long that is followed by the rest of `p` does not start with `p` when `s` does not. */
  lemma {:induction false} PrefixNotStartingWith(s: string, p: string, c: char, piece: string, later: string)
    requires p != [] && s == [c] + piece + p + later && !StartsWith(s, p)
    ensures !StartsWith([c] + (piece + p[..|p| - 1]), p)
  {
    var head := [c] + (piece + p[..|p| - 1]);
    assert p == p[..|p| - 1] + [p[|p| - 1]];
    assert s == head + ([p[|p| - 1]] + later);
    assert head[..|p|] == s[..|p|];
  }

  /**
   * A character that does not start an occurrence, put in front of a piece that cannot be
   * extended into one, still cannot: the first piece of a split stays leftmost.
   */
  lemma {:induction false} FirstPieceStaysLeftmost(s: string, p: string, c: char, piece: string, later: string)
    requires p != [] && s == [c] + piece + p + later && !StartsWith(s, p)
    requires !Contains(piece + p[..|p| - 1], p)
    ensures !Contains([c] + (piece + p[..|p| - 1]), p)
  {
    PrefixNotStartingWith(s, p, c, piece, later);
    ContainsAfterHead(c, piece + p[..|p| - 1], p);
  }

  /** When `s` starts with `p`, the split is an empty piece followed by the leftmost split of the rest. */
  lemma {:induction false} LeftmostAfterMatch(s: string, p: string)
    requires p != [] && |p| <= |s| && StartsWith(s, p)
    requires IsLeftmostSplit(s[|p|..], p, Split(s[|p|..], p))
    ensures IsLeftmostSplit(s, p, Split(s, p))
  {
    SplitJoinRoundTrip(s, p);
    var parts := Split(s, p);
    var rest := Split(s[|p|..], p);
    assert parts == [[]] + rest;
    assert !Contains(parts[0] + p[..|p| - 1], p) by {
      assert |parts[0] + p[..|p| - 1]| < |p|;
    }
    assert forall i :: 1 <= i < |parts| ==> parts[i] == rest[i - 1];
  }

  /** When `s` does not start with `p`, its first character joins the first piece of the rest's leftmost split. */
  lemma {:induction false} LeftmostAfterMiss(s: string, p: string)
    requires p != [] && |p| <= |s| && !StartsWith(s, p)
    requires IsLeftmostSplit(s[1..], p, Split(s[1..], p))
    ensures IsLeftmostSplit(s, p, Split(s, p))
  {
    SplitJoinRoundTrip(s, p);
    var parts := Split(s, p);
    var rest := Split(s[1..], p);
    assert parts == [[s[0]] + rest[0]] + rest[1..];
    assert forall i :: 1 <= i < |parts| ==> parts[i] == rest[i];
    if |rest| == 1 {
      assert Join(rest, p) == rest[0];
      assert parts[0] == s by {
        assert s == [s[0]] + s[1..];
      }
    } else {
      assert Join(rest, p) == rest[0] + p + Join(rest[1..], p);
      assert s == [s[0]] + rest[0] + p + Join(rest[1..], p) by {
        assert s == [s[0]] + s[1..];
      }
      FirstPieceStaysLeftmost(s, p, s[0], rest[0], Join(rest[1..], p));
      assert parts[0] + p[..|p| - 1] == [s[0]] + (rest[0] + p[..|p| - 1]);
    }
  }

  /** `Split` computes the leftmost split. */
  lemma {:induction false} SplitIsLeftmost(s: string, p: string)
    requires p != []
    ensures IsLeftmostSplit(s, p, Split(s, p))
    decreases |s|
  {
    if |s| < |p| {
      SplitJoinRoundTrip(s, p);
    } else if StartsWith(s, p) {
      SplitIsLeftmost(s[|p|..], p);
      LeftmostAfterMatch(s, p);
    } else {
      SplitIsLeftmost(s[1..], p);
      LeftmostAfterMiss(s, p);
    }
  }

  /** There is only one leftmost split, so `IsLeftmostSplit` pins down `Split`. */
  lemma {:induction false} LeftmostSplitUnique(s: string, p: string, a: seq<string>, b: seq<string>)
    requires p != []
    requires IsLeftmostSplit(s, p, a) && IsLeftmostSplit(s, p, b)
    ensures a == b
    decreases |a|
  {
    if |a| == 1 && |b| == 1 {
    } else if |a| == 1 {
      assert Join(b, p) == b[0] + p + Join(b[1..], p);
      ContainsMiddle(b[0], p, Join(b[1..], p));
    } else if |b| == 1 {
      assert Join(a, p) == a[0] + p + Join(a[1..], p);
      ContainsMiddle(a[0], p, Join(a[1..], p));
    } else {
      var ta, tb := Join(a[1..], p), Join(b[1..], p);
      assert s == a[0] + p + ta;
      assert s == b[0] + p + tb;
      if |a[0]| < |b[0]| {
        LaterSeparatorNotLeftmost(s, p, a[0], ta, b[0], tb);
      } else if |b[0]| < |a[0]| {
        LaterSeparatorNotLeftmost(s, p, b[0], tb, a[0], ta);
      } else {
        assert a[0] == s[..|a[0]|] == b[0];
        assert ta == s[|a[0]| + |p|..] == tb;
        assert IsLeftmostSplit(ta, p, a[1..]) by {
          assert forall i :: 0 <= i < |a| - 2 ==> a[1..][i] == a[i + 1];
        }
        assert IsLeftmostSplit(ta, p, b[1..]) by {
          assert forall i :: 0 <= i < |b| - 2 ==> b[1..][i] == b[i + 1];
        }
        LeftmostSplitUnique(ta, p, a[1..], b[1..]);
        assert a == [a[0]] + a[1..];
        assert b == [b[0]] + b[1..];
      }
    }
  }

  /** If `s` has an occurrence at `|x|`, a piece `y` longer than `x` cannot be followed by the first separator. */
  lemma LaterSeparatorNotLeftmost(s: string, p: string, x: string, tx: string, y: string, ty: string)
    requires p != []
    requires s == x + p + tx && s == y + p + ty
    requires |x| < |y|
    ensures Contains(y + p[..|p| - 1], p)
  {
    var h := y + p[..|p| - 1];
    assert h == s[..|h|];
    assert h[|x|..|x| + |p|] == s[|x|..|x| + |p|] == p;
    assert OccursAt(h, p, |x|);
    ContainsIffOccurs(h, p);
  }

  /** The pattern occurs exactly when the split yields more than one piece. */
  lemma {:induction false} ContainsIffSplitMany(s: string, p: string)
    requires p != []
    ensures Contains(s, p) <==> |Split(s, p)| > 1
  {
    SplitIsLeftmost(s, p);
    var parts := Split(s, p);
    if |parts| > 1 {
      assert Join(parts, p) == parts[0] + p + Join(parts[1..], p);
      ContainsMiddle(parts[0], p, Join(parts[1..], p));
    }
  }

  // ---------------------------------------------------------------------------
  // Whitespace trimming
  // ---------------------------------------------------------------------------

  /**
   * The characters `String.prototype.trim` removes: ECMAScript WhiteSpace
   * (tab, vertical tab, form feed, space, no-break space, byte order mark and the
   * Unicode space separators) and LineTerminator (line feed, carriage return,
   * line and paragraph separators).
   */
  predicate IsSpace(c: char)
  {
    || c == '\t' || c == '\U{000B}' || c == '\U{000C}' || c == ' ' || c == '\U{00A0}' || c == '\U{FEFF}'
    || c == '\n' || c == '\r' || c == '\U{2028}' || c == '\U{2029}'
    || c == '\U{1680}' || ('\U{2000}' <= c <= '\U{200A}') || c == '\U{202F}' || c == '\U{205F}' || c == '\U{3000}'
  }

  /** Drops leading whitespace. */
  function TrimStart(s: string): (t: string)
    ensures |t| <= |s| && t == s[|s| - |t|..]
    ensures forall i :: 0 <= i < |s| - |t| ==> IsSpace(s[i])
    ensures t == [] || !IsSpace(t[0])
    decreases |s|
  {
    if s != [] && IsSpace(s[0]) then TrimStart(s[1..]) else s
  }

  /** Drops trailing whitespace. */
  function TrimEnd(s: string): (t: string)
    ensures |t| <= |s| && t == s[..|t|]
    ensures forall i :: |t| <= i < |s| ==> IsSpace(s[i])
    ensures t == [] || !IsSpace(t[|t| - 1])
    decreases |s|
  {
    if s != [] && IsSpace(s[|s| - 1]) then TrimEnd(s[..|s| - 1]) else s
  }

  /** `s.trim()`. */
  function Trim(s: string): (t: string)
    ensures |t| <= |s|
    ensures t == [] || (!IsSpace(t[0]) && !IsSpace(t[|t| - 1]))
  {
    TrimEnd(TrimStart(s))
  }

  /** Any prefix with only whitespace after it and no whitespace at its end is `TrimEnd`'s result. */
  lemma {:induction false} TrimEndUnique(s: string, t: string)
    requires |t| <= |s| && t == s[..|t|]
    requires forall i :: |t| <= i < |s| ==> IsSpace(s[i])
    requires t == [] || !IsSpace(t[|t| - 1])
    ensures TrimEnd(s) == t
  {
    var u := TrimEnd(s);
    if |u| < |t| {
      assert false;
    } else if |t| < |u| {
      assert false;
    }
  }

  /** Trailing whitespace is trimmed from the end of `b` only, as long as `b` has a visible character. */
  lemma TrimEndAppend(a: string, b: string, k: int)
    requires 0 <= k < |b| && !IsSpace(b[k])
    ensures TrimEnd(a + b) == a + TrimEnd(b)
  {
    var tb := TrimEnd(b);
    assert |tb| > k;
    var t := a + tb;
    assert t == (a + b)[..|t|];
    assert forall i :: |t| <= i < |a + b| ==> (a + b)[i] == b[i - |a|];
    TrimEndUnique(a + b, t);
  }

  /** A string that starts with a visible character is its own `TrimStart`. */
  lemma TrimStartOfVisibleHead(s: string)
    requires s != [] && !IsSpace(s[0])
    ensures TrimStart(s) == s
  {
  }

  /** A trailing newline after a message with a visible character does not change `TrimEnd`. */
  lemma {:induction false} TrimEndDropsNewline(m: string, k: int)
    requires 0 <= k < |m| && !IsSpace(m[k])
    ensures TrimEnd(m + "\n") == TrimEnd(m)
  {
    var b := m + "\n";
    var t := TrimEnd(m);
    assert |t| > k;
    assert t == b[..|t|];
    assert IsSpace(b[|b| - 1]);
    assert forall i :: |t| <= i < |b| ==> IsSpace(b[i]);
    TrimEndUnique(b, t);
  }

  /** Trimming twice is trimming once. */
  lemma {:induction false} TrimIdempotent(s: string)
    ensures Trim(Trim(s)) == Trim(s)
  {
    var t := Trim(s);
    var u := TrimStart(s);
    if t != [] {
      assert t[0] == u[0];
      assert TrimStart(t) == t;
      TrimEndUnique(t, t);
    }
  }
}

=== FILE: walkproofs.dfy ===
/**
 * What one walk does to the tree and to the log, proved for every tree: each regular
 * file the walk can reach gets exactly one outcome message, every file message is
 * about such a file and is the one its decision produces, and only reached files
 * whose text matched and whose write succeeded change.
 */
module WalkProofs {
  import opened Wrappers
  import opened Text
  import opened FileTree
  import opened Editor
  import Cli

  // ---------------------------------------------------------------------------
  // Paths the walk reaches
  // ---------------------------------------------------------------------------

  /** A node the walk reaches is the node found at that path. */
  lemma {:induction false} ReachedIsLookup(n: Node, rel: seq<string>)
    ensures Reached(n, rel).Some? ==> Lookup(n, rel) == Reached(n, rel)
    decreases n
  {
    if rel != [] && n.Dir? && n.list.Ok? {
      ReachedInIsLookupIn(n.entries, rel);
    }
  }

  /** `ReachedIsLookup` for the entries of a directory. */
  lemma {:induction false} ReachedInIsLookupIn(es: seq<Entry>, rel: seq<string>)
    requires rel != []
    ensures ReachedIn(es, rel).Some? ==> LookupIn(es, rel) == ReachedIn(es, rel)
    decreases es
  {
    if es != [] {
      if es[0].name == rel[0] {
        ReachedIsLookup(es[0].node, rel[1..]);
      } else {
        ReachedInIsLookupIn(es[1..], rel);
      }
    }
  }

  /** A path reached through `es` starts with the name of one of its entries. */
  lemma {:induction false} ReachedInHasName(es: seq<Entry>, rel: seq<string>)
    requires rel != [] && ReachedIn(es, rel).Some?
    ensures HasName(es, rel[0])
    decreases es
  {
    if es[0].name != rel[0] {
      ReachedInHasName(es[1..], rel);
    }
  }

  // ---------------------------------------------------------------------------
  // Every file message is accounted for by a reached file
  // ---------------------------------------------------------------------------

  /**
   * A message of the walk of `n` at `at` is, if it is a file message, the decision's
   * message for a regular file the walk reaches below `n`.
   */
  ghost predicate Accounted(at: seq<string>, n: Node, m: Msg, search: string, replacement: string)
    requires search != [] && IsLiteralCase(search, replacement)
  {
    m.IsFileMsg() ==>
      && |at| < |m.path| && m.path[..|at|] == at
      && Reached(n, m.path[|at|..]).Some?
      && Reached(n, m.path[|at|..]).value.File?
      && m == EditFile(m.path, Reached(n, m.path[|at|..]).value, search, replacement).1
  }

  /** `Accounted` for the entries of a directory at `at`. */
  ghost predicate AccountedIn(at: seq<string>, es: seq<Entry>, m: Msg, search: string, replacement: string)
    requires search != [] && IsLiteralCase(search, replacement)
  {
    m.IsFileMsg() ==>
      && |at| < |m.path| && m.path[..|at|] == at
      && ReachedIn(es, m.path[|at|..]).Some?
      && ReachedIn(es, m.path[|at|..]).value.File?
      && m == EditFile(m.path, ReachedIn(es, m.path[|at|..]).value, search, replacement).1
  }

  /** `Accounted` for one entry of a directory at `at`: the message's path goes through that entry. */
  ghost predicate AccountedEntry(at: seq<string>, e: Entry, m: Msg, search: string, replacement: string)
    requires search != [] && IsLiteralCase(search, replacement)
  {
    m.IsFileMsg() ==>
      && |at| < |m.path| && m.path[..|at|] == at && m.path[|at|] == e.name
      && e.stat.Ok?
      && Reached(e.node, m.path[|at| + 1..]).Some?
      && Reached(e.node, m.path[|at| + 1..]).value.File?
      && m == EditFile(m.path, Reached(e.node, m.path[|at| + 1..]).value, search, replacement).1
  }

  /** No message of a walk names a file the walk does not reach, and each says what that file's decision says. */
  lemma {:induction false} WalkDirAccounted(at: seq<string>, n: Node, search: string, replacement: string)
    requires search != [] && IsLiteralCase(search, replacement)
    requires WellFormed(n)
    ensures forall m :: m in WalkDir(at, n, search, replacement).1 ==> Accounted(at, n, m, search, replacement)
    decreases n
  {
    if n.Dir? && n.list.Ok? {
      WalkEntriesAccounted(at, n.entries, search, replacement);
      forall m | m in WalkDir(at, n, search, replacement).1
        ensures Accounted(at, n, m, search, replacement)
      {
        assert AccountedIn(at, n.entries, m, search, replacement);
      }
    }
  }

  /** `WalkDirAccounted` for the entries of a directory. */
  lemma {:induction false} WalkEntriesAccounted(at: seq<string>, es: seq<Entry>, search: string, replacement: string)
    requires search != [] && IsLiteralCase(search, replacement)
    requires DistinctNames(es) && EntriesWellFormed(es)
    ensures forall m :: m in WalkEntries(at, es, search, replacement).1 ==> AccountedIn(at, es, m, search, replacement)
    decreases es
  {
    if es != [] {
      var m1 := WalkEntry(at, es[0], search, replacement).1;
      var m2 := WalkEntries(at, es[1..], search, replacement).1;
      assert WalkEntries(at, es, search, replacement).1 == m1 + m2;
      WalkEntryAccounted(at, es[0], search, replacement);
      WalkEntriesAccounted(at, es[1..], search, replacement);
      forall m: Msg | m in m1 + m2 && m.IsFileMsg()
        ensures AccountedIn(at, es, m, search, replacement)
      {
        var tail := m.path[|at|..];
        if m in m1 {
          assert AccountedEntry(at, es[0], m, search, replacement);
          assert tail[0] == es[0].name;
          assert tail[1..] == m.path[|at| + 1..];
        } else {
          assert AccountedIn(at, es[1..], m, search, replacement);
          ReachedInHasName(es[1..], tail);
          assert tail[0] != es[0].name;
        }
      }
    }
  }

  /** `WalkDirAccounted` for one entry. */
  lemma {:induction false} WalkEntryAccounted(at: seq<string>, e: Entry, search: string, replacement: string)
    requires search != [] && IsLiteralCase(search, replacement)
    requires WellFormed(e.node)
    ensures forall m :: m in WalkEntry(at, e, search, replacement).1 ==> AccountedEntry(at, e, m, search, replacement)
    decreases e
  {
    var here := at + [e.name];
    if e.stat.Ok? {
      match e.node
      case Dir(_, _) =>
        WalkDirAccounted(here, e.node, search, replacement);
        forall m | m in WalkEntry(at, e, search, replacement).1 && m.IsFileMsg()
          ensures AccountedEntry(at, e, m, search, replacement)
        {
          assert Accounted(here, e.node, m, search, replacement);
          assert m.path[..|here|] == here;
          assert m.path[..|at|] == here[..|at|] == at;
          assert m.path[|at|] == here[|at|];
          assert m.path[|here|..] == m.path[|at| + 1..];
        }
      case File(_, _, _) =>
        forall m | m in WalkEntry(at, e, search, replacement).1 && m.IsFileMsg()
          ensures AccountedEntry(at, e, m, search, replacement)
        {
          assert m.path == here;
          assert m.path[|at| + 1..] == [];
        }
      case Special =>
    }
  }

  // ---------------------------------------------------------------------------
  // Every reached file gets exactly one message
  // ---------------------------------------------------------------------------

  /** Each regular file the walk reaches has its decision's message logged exactly once. */
  lemma {:induction false} WalkDirOutcomeOnce(at: seq<string>, n: Node, rel: seq<string>, f: Node, search: string, replacement: string)
    requires search != [] && IsLiteralCase(search, replacement)
    requires WellFormed(n) && rel != [] && Reached(n, rel) == Some(f) && f.File?
    ensures WalkDir(at, n, search, replacement).1[EditFile(at + rel, f, search, replacement).1] == 1
    decreases n
  {
    WalkEntriesOutcomeOnce(at, n.entries, rel, f, search, replacement);
  }

  /** `WalkDirOutcomeOnce` for the entries of a directory. */
  lemma {:induction false} WalkEntriesOutcomeOnce(at: seq<string>, es: seq<Entry>, rel: seq<string>, f: Node, search: string, replacement: string)
    requires search != [] && IsLiteralCase(search, replacement)
    requires DistinctNames(es) && EntriesWellFormed(es)
    requires rel != [] && ReachedIn(es, rel) == Some(f) && f.File?
    ensures WalkEntries(at, es, search, replacement).1[EditFile(at + rel, f, search, replacement).1] == 1
    decreases es
  {
    var msg := EditFile(at + rel, f, search, replacement).1;
    var m1 := WalkEntry(at, es[0], search, replacement).1;
    var m2 := WalkEntries(at, es[1..], search, replacement).1;
    assert WalkEntries(at, es, search, replacement).1 == m1 + m2;
    assert msg.path[|at|..] == rel;
    if es[0].name == rel[0] {
      WalkEntryOutcomeOnce(at, es[0], rel, f, search, replacement);
      if msg in m2 {
        WalkEntriesAccounted(at, es[1..], search, replacement);
        assert AccountedIn(at, es[1..], msg, search, replacement);
        ReachedInHasName(es[1..], rel);
        assert false;
      }
    } else {
      WalkEntriesOutcomeOnce(at, es[1..], rel, f, search, replacement);
      if msg in m1 {
        WalkEntryAccounted(at, es[0], search, replacement);
        assert false;
      }
    }
  }

  /** `WalkDirOutcomeOnce` for the entry through which `rel` goes. */
  lemma {:induction false} WalkEntryOutcomeOnce(at: seq<string>, e: Entry, rel: seq<string>, f: Node, search: string, replacement: string)
    requires search != [] && IsLiteralCase(search, replacement)
    requires WellFormed(e.node)
    requires rel != [] && rel[0] == e.name && e.stat.Ok? && Reached(e.node, rel[1..]) == Some(f) && f.File?
    ensures WalkEntry(at, e, search, replacement).1[EditFile(at + rel, f, search, replacement).1] == 1
    decreases e
  {
    if rel[1..] == [] {
      assert rel == [e.name];
    } else {
      WalkDirOutcomeOnce(at + [e.name], e.node, rel[1..], f, search, replacement);
      assert at + [e.name] + rel[1..] == at + rel;
    }
  }

  // ---------------------------------------------------------------------------
  // What happens to each file's text
  // ---------------------------------------------------------------------------

  /**
   * After the walk, the file at `rel` holds what its decision left if the walk reached
   * it, and its old text otherwise.
   */
  lemma {:induction false} WalkDirContent(at: seq<string>, n: Node, rel: seq<string>, f: Node, search: string, replacement: string)
    requires search != [] && IsLiteralCase(search, replacement)
    requires rel != [] && Lookup(n, rel) == Some(f) && f.File?
    ensures Lookup(WalkDir(at, n, search, replacement).0, rel) ==
      Some(if Reached(n, rel).Some? then EditFile(at + rel, f, search, replacement).0 else f)
    decreases n
  {
    if n.list.Ok? {
      WalkEntriesContent(at, n.entries, rel, f, search, replacement);
    }
  }

  /** `WalkDirContent` for the entries of a directory. */
  lemma {:induction false} WalkEntriesContent(at: seq<string>, es: seq<Entry>, rel: seq<string>, f: Node, search: string, replacement: string)
    requires search != [] && IsLiteralCase(search, replacement)
    requires rel != [] && LookupIn(es, rel) == Some(f) && f.File?
    ensures LookupIn(WalkEntries(at, es, search, replacement).0, rel) ==
      Some(if ReachedIn(es, rel).Some? then EditFile(at + rel, f, search, replacement).0 else f)
    decreases es
  {
    var e := es[0];
    var es' := WalkEntries(at, es, search, replacement).0;
    var e' := WalkEntry(at, e, search, replacement).0;
    assert es'[0] == e';
    assert es'[1..] == WalkEntries(at, es[1..], search, replacement).0;
    if e.name == rel[0] {
      if e.stat.Ok? {
        match e.node
        case Dir(_, _) =>
          WalkDirContent(at + [e.name], e.node, rel[1..], f, search, replacement);
          assert at + [e.name] + rel[1..] == at + rel;
        case File(_, _, _) =>
          assert rel == [e.name];
        case Special =>
      }
    } else {
      WalkEntriesContent(at, es[1..], rel, f, search, replacement);
    }
  }

  // ---------------------------------------------------------------------------
  // Consequences
  // ---------------------------------------------------------------------------

  /** Replacing the search string with itself leaves the whole tree as it was. */
  lemma {:induction false} WalkDirSelfReplace(at: seq<string>, n: Node, search: string)
    requires search != [] && IsLiteralCase(search, search)
    ensures WalkDir(at, n, search, search).0 == n
    decreases n
  {
    if n.Dir? && n.list.Ok? {
      WalkEntriesSelfReplace(at, n.entries, search);
    }
  }

  /** `WalkDirSelfReplace` for the entries of a directory. */
  lemma {:induction false} WalkEntriesSelfReplace(at: seq<string>, es: seq<Entry>, search: string)
    requires search != [] && IsLiteralCase(search, search)
    ensures WalkEntries(at, es, search, search).0 == es
    decreases es
  {
    if es != [] {
      var e := es[0];
      if e.stat.Ok? {
        match e.node
        case Dir(_, _) => WalkDirSelfReplace(at + [e.name], e.node, search);
        case File(c, _, _) => ReplaceAllSelfIsIdentity(c, search);
        case Special =>
      }
      WalkEntriesSelfReplace(at, es[1..], search);
      assert es == [es[0]] + es[1..];
    }
  }

  /**
   * A walk over a tree where every reached file is readable and free of the search
   * string (as after a successful first run) logs only SKIPPED for files and
   * writes nothing.
   */
  lemma SecondRunOnlySkips(at: seq<string>, n: Node, search: string, replacement: string)
    requires search != [] && IsLiteralCase(search, replacement)
    requires WellFormed(n)
    requires forall rel :: rel != [] && Reached(n, rel).Some? && Reached(n, rel).value.File? ==>
      Reached(n, rel).value.read.Ok? && !Contains(Reached(n, rel).value.content, search)
    ensures forall m :: m in WalkDir(at, n, search, replacement).1 && m.IsFileMsg() ==> m.Skipped?
    ensures forall rel, f :: rel != [] && Lookup(n, rel) == Some(f) && f.File? ==>
      Lookup(WalkDir(at, n, search, replacement).0, rel) == Some(f)
  {
    WalkDirAccounted(at, n, search, replacement);
    forall m | m in WalkDir(at, n, search, replacement).1 && m.IsFileMsg()
      ensures m.Skipped?
    {
      assert Accounted(at, n, m, search, replacement);
      assert m.path[|at|..] != [];
    }
    forall rel, f | rel != [] && Lookup(n, rel) == Some(f) && f.File?
      ensures Lookup(WalkDir(at, n, search, replacement).0, rel) == Some(f)
    {
      WalkDirContent(at, n, rel, f, search, replacement);
      ReachedIsLookup(n, rel);
    }
  }

  // ---------------------------------------------------------------------------
  // Scan and stat errors
  // ---------------------------------------------------------------------------

  /**
   * What a walk runs into, counted on the tree alone: the regular files it edits, the
   * causes of the listings that fail and the causes of the stats that fail.
   */
  datatype Tally = Tally(files: nat, scans: multiset<string>, stats: multiset<string>)
  {
    /** Two tallies taken together. */
    function Plus(other: Tally): Tally
    {
      Tally(files + other.files, scans + other.scans, stats + other.stats)
    }
  }

  /** The tally of a walk started at `n`: a root that is not a directory is one failed listing. */
  function TallyOf(n: Node): Tally
    decreases n
  {
    match n
    case Dir(es, Ok) => TallyIn(es)
    case Dir(_, Fail(c)) => Tally(0, multiset{c}, multiset{})
    case _ => Tally(0, multiset{NotADirectory}, multiset{})
  }

  /** The tally over the entries of a listed directory. */
  function TallyIn(es: seq<Entry>): Tally
    decreases es
  {
    if es == [] then Tally(0, multiset{}, multiset{})
    else TallyEntry(es[0]).Plus(TallyIn(es[1..]))
  }

  /** The tally of one entry: a failed stat, a subdirectory's walk, one file, or nothing. */
  function TallyEntry(e: Entry): Tally
    decreases e
  {
    match e.stat
    case Fail(c) => Tally(0, multiset{}, multiset{c})
    case Ok =>
      match e.node
      case Dir(_, _) => TallyOf(e.node)
      case File(_, _, _) => Tally(1, multiset{}, multiset{})
      case Special => Tally(0, multiset{}, multiset{})
  }

  /**
   * The messages `ms` match the tally `t`: every message is about a file, a listing or
   * a stat; each failing listing and each failing stat is logged exactly once with its
   * cause; and there is one message per file besides.
   */
  ghost predicate Tallied(ms: multiset<Msg>, t: Tally)
  {
    && (forall m :: m in ms ==> m.IsFileMsg() || m.ScanFailed? || m.StatFailed?)
    && (forall c :: ms[ScanFailed(c)] == t.scans[c])
    && (forall c :: ms[StatFailed(c)] == t.stats[c])
    && |ms| == t.files + |t.scans| + |t.stats|
  }

  /** Pooling the messages of two walks pools their tallies. */
  lemma TalliedPlus(m1: multiset<Msg>, t1: Tally, m2: multiset<Msg>, t2: Tally)
    requires Tallied(m1, t1) && Tallied(m2, t2)
    ensures Tallied(m1 + m2, t1.Plus(t2))
  {
  }

  /**
   * The scan and stat errors of a walk are exactly the failing listings and stats it
   * meets, once each, and apart from them it logs one message per file it edits.
   */
  lemma {:induction false} WalkDirTally(at: seq<string>, n: Node, search: string, replacement: string)
    requires search != [] && IsLiteralCase(search, replacement)
    ensures Tallied(WalkDir(at, n, search, replacement).1, TallyOf(n))
    decreases n
  {
    if n.Dir? && n.list.Ok? {
      WalkEntriesTally(at, n.entries, search, replacement);
    }
  }

  /** `WalkDirTally` for the entries of a directory. */
  lemma {:induction false} WalkEntriesTally(at: seq<string>, es: seq<Entry>, search: string, replacement: string)
    requires search != [] && IsLiteralCase(search, replacement)
    ensures Tallied(WalkEntries(at, es, search, replacement).1, TallyIn(es))
    decreases es
  {
    if es != [] {
      WalkEntryTally(at, es[0], search, replacement);
      WalkEntriesTally(at, es[1..], search, replacement);
      TalliedPlus(WalkEntry(at, es[0], search, replacement).1, TallyEntry(es[0]),
        WalkEntries(at, es[1..], search, replacement).1, TallyIn(es[1..]));
    }
  }

  /** `WalkDirTally` for one entry. */
  lemma {:induction false} WalkEntryTally(at: seq<string>, e: Entry, search: string, replacement: string)
    requires search != [] && IsLiteralCase(search, replacement)
    ensures Tallied(WalkEntry(at, e, search, replacement).1, TallyEntry(e))
    decreases e
  {
    if e.stat.Ok? && e.node.Dir? {
      WalkDirTally(at + [e.name], e.node, search, replacement);
    }
  }

  // ---------------------------------------------------------------------------
  // A whole run
  // ---------------------------------------------------------------------------

  /** An accepted run logs each regular file it reaches below the directory argument exactly once. */
  lemma RunOutcomeOnce(args: seq<string>, tree: Node, rel: seq<string>, f: Node)
    requires Cli.ParseArgs(args).Success?
    requires IsLiteralCase(args[1], args[2])
    requires WellFormed(tree) && rel != [] && Reached(tree, rel) == Some(f) && f.File?
    ensures Run(args, tree).outcomes[EditFile(rel, f, args[1], args[2]).1] == 1
  {
    WalkDirOutcomeOnce([], tree, rel, f, args[1], args[2]);
    assert [] + rel == rel;
  }

  /** Every file message of an accepted run is the decision for a regular file the run reaches. */
  lemma RunAccounted(args: seq<string>, tree: Node)
    requires Cli.ParseArgs(args).Success?
    requires IsLiteralCase(args[1], args[2])
    requires WellFormed(tree)
    ensures forall m :: m in Run(args, tree).outcomes ==> Accounted([], tree, m, args[1], args[2])
  {
    WalkDirAccounted([], tree, args[1], args[2]);
  }

  /**
   * After an accepted run each regular file holds what its decision left if the run
   * reached it, and its old text otherwise.
   */
  lemma RunContent(args: seq<string>, tree: Node, rel: seq<string>, f: Node)
    requires Cli.ParseArgs(args).Success?
    requires IsLiteralCase(args[1], args[2])
    requires rel != [] && Lookup(tree, rel) == Some(f) && f.File?
    ensures Lookup(Run(args, tree).tree, rel) ==
      Some(if Reached(tree, rel).Some? then EditFile(rel, f, args[1], args[2]).0 else f)
  {
    WalkDirContent([], tree, rel, f, args[1], args[2]);
    assert [] + rel == rel;
  }

  /** The scan and stat errors of an accepted run are exactly the failures its walk meets, once each. */
  lemma RunTally(args: seq<string>, tree: Node)
    requires Cli.ParseArgs(args).Success?
    requires IsLiteralCase(args[1], args[2])
    ensures Tallied(Run(args, tree).outcomes, TallyOf(tree))
  {
    WalkDirTally([], tree, args[1], args[2]);
  }
}

=== FILE: wrappers.dfy ===
/** Failure-carrying values used across the model. */
module Wrappers {

  /** A value that may be absent: a missing command-line argument, a path that names nothing. */
  datatype Option<+T> = None | Some(value: T)

  /** Either a value or an error description. */
  datatype Result<+R, +E> = Success(value: R) | Failure(error: E)
}
